=== FILE: README.md ===
# QuickDrop drop store and client rules, modelled in Dafny

QuickDrop lets a sender upload a batch of files and get back a six-character
code; anyone holding the code downloads the files as one zip until the drop
expires and a periodic sweep deletes it. This project models the logic that
decides what happens to a drop:

- `action.dfy` (module `Action`): the server actions. The `data/` directory is
  a `DropStore` object with two maps, `folders` (code to file name to bytes)
  and `meta` (code to the expiration read from `<code>.meta`), and a flag for
  whether `data/` exists. `GenerateRandomCode` builds a code from six draws of
  the 36-symbol alphabet. `SaveFiles` runs the check-then-create retry loop,
  writes the meta entry and then every file in order, stopping with an error
  at a file whose name resolves to a directory. `GetFiles` returns the
  folder or nothing. `PurgeOldFolders` removes every folder whose meta entry is
  strictly before `now`.
- `page.dfy` (module `Page`): the page. It gates a typed code before any
  lookup and applies the 25 MB upload gate. Typing "confirm" while a batch is
  parked uploads it anyway. It also picks the retention (2 h or 168 h), renames
  dropped files that clash with listed names, and removes a listed file by
  index.
- `report.dfy` (module `Report`): the abuse-report validators and the reason
  placed in the report mail. The page carries an identical copy of these
  validators (`src/app/page.js:34-45`, `src/app/page.js:403-405`), so one
  module models both.
- `request.dfy` (module `LocaleRequest`): the locale chosen for a request from
  the `Accept-Language` header, with the fall back to English.
- `codes.dfy`, `text.dfy`, `wrappers.dfy`: the code alphabet and pattern
  `^[A-Z0-9]{6}$`, the string operations the sources use (`toUpperCase`,
  `toLowerCase`, `split(sep)[0]`, `includes`, decimal printing), and
  Option/Result.

Randomness is a sequence of draws in `[0, 36)`. Pass `a` of the retry loop
spells its code from draws `6a` to `6a + 5`. The clock is an integer `now` in
milliseconds. The dynamic import of a locale file is a lookup in a catalog map.

What the code does and does not do:

- Code allocation checks for a folder and then creates it in two steps, with
  no retry ceiling. Operations run one after another in the model, so the gap
  between the check and the create is not visible in it.
- A save whose write throws part-way is not rolled back. A file named `""`,
  `.` or `..` resolves to a directory, so `writeFileSync` throws `EISDIR`:
  the folder, its meta entry and the files written before it stay, and the
  caller never receives the code.
- `getFiles` does not check the code's syntax. The page does that before it
  calls `getFiles`.
- `getFiles` does not look at the expiration. A drop stays readable until a
  sweep removes it.

## Model

| member | source | states |
|---|---|---|
| `Codes.Spell` | src/app/action.js:7-14 | six draws spell a string that matches `^[A-Z0-9]{6}$`, character `i` being alphabet symbol `draws[i]` |
| `Codes.AlphabetIsCodeClass` | src/app/action.js:8 | a character is in the generator's alphabet exactly when it is in `[A-Z0-9]` |
| `Codes.EveryCodeIsSpelled` | src/app/action.js:7-14 | every string matching the code pattern can be generated by some six draws |
| `Codes.UpperIsCodeIff` | src/app/page.js:241-249 | for ASCII input, the upper-cased input matches the code pattern exactly when the input is six ASCII letters or digits in any case |
| `Text.Upper` | src/app/page.js:242 | `toUpperCase` keeps the length, maps each lower-case ASCII letter to upper case and leaves no lower-case letter |
| `Text.Lower` | src/app/page.js:137 | `toLowerCase` keeps the length, maps each upper-case ASCII letter to lower case and leaves no upper-case letter |
| `Text.Before` | src/i18n/request.js:12 | `split(sep)[0]` is a prefix without `sep` that stops either at the end or just before the first `sep` |
| `Text.BeforeAt` | src/i18n/request.js:12 | when the first `sep` is at position `k`, `split(sep)[0]` is the first `k` characters |
| `Text.BeforeAbsent` | src/i18n/request.js:12 | a string without `sep` splits to itself |
| `Text.Decimal` | src/app/page.js:278 | the counter prints as at least one decimal digit, and two or more exactly from 10 up |
| `Text.DecimalInjective` | src/app/page.js:278 | different counters print differently |
| `Action.GenerateRandomCode` | src/app/action.js:7-14 | the loop builds a code matching `^[A-Z0-9]{6}$` whose `i`-th character is alphabet symbol `draws[i]` |
| `Action.Attempt` | src/app/action.js:71-74 | the code of each pass of the retry loop matches the code pattern |
| `Codes.CodeOverAlphabet` | src/app/page.js:58 | `IsCode`, the test `/^[A-Z0-9]{6}$/` (also src/app/components/modals/report.js:14), holds exactly for six symbols of the generator's alphabet |
| `Action.WrittenCount` | src/app/action.js:87-91 | the writes that succeed are those before the first file whose name resolves to a directory; every earlier name is a plain file name |
| `Action.SavedFolderComplete` | src/app/action.js:87-91 | when no write throws, the saved folder holds the whole batch |
| `Action.FolderOfSnoc` | src/app/action.js:87-91 | each `writeFileSync` of the loop sets one more name of the folder to that file's data |
| `Action.FolderOfNames` | src/app/action.js:87-91 | writing the files one after another leaves a folder whose names are exactly the files' names |
| `Action.FolderOfLastWins` | src/app/action.js:87-91 | when a name repeats, the folder holds the data of the last file with that name |
| `Action.ExpiredCodes` | src/app/action.js:23-35 | a sweep removes exactly the folders that have a meta entry holding a number strictly below `now` |
| `Action.PurgeKeeps` | src/app/action.js:23-35 | a folder survives a sweep exactly when it has no meta entry, an unparsable one, or one not before `now`, and a survivor is unchanged |
| `Action.PurgeIdempotent` | src/app/action.js:16-38 | a second sweep at the same `now` removes nothing, so sweeping twice equals sweeping once |
| `Action.SweepRemovesPastDeadline` | src/app/action.js:27-34 | a drop saved with a deadline before `now` is removed by the sweep |
| `Action.DropStore.constructor` | src/app/action.js:17-20 | the store starts with no `data/` directory, no folders and no meta entries |
| `Action.DropStore.DrawFreshCode` | src/app/action.js:71-74 | the retry loop returns a code matching the pattern that has no folder yet and is the first such code among its passes |
| `Action.DropStore.WriteFiles` | src/app/action.js:87-91 | writing the files in order into the empty new folder leaves exactly the files before the first failing write in that folder and touches no other folder; it reports `EISDIR` for the failing name, and nothing when every write succeeds |
| `Action.DropStore.SaveFiles` | src/app/action.js:67-94 | the returned code had no folder and is the first fresh code the loop draws; afterwards it holds the files written before the first failing write (later ones win) and a meta entry `now + expiresInHours * 3600000`, where `expiresInHours` defaults to 2; the call fails, with `EISDIR` for that file's name, exactly when some write fails; `data/` exists and every other folder and meta entry is unchanged |
| `Action.DropStore.GetFiles` | src/app/action.js:40-65 | returns the folder exactly when one exists for the code, otherwise nothing; it ignores expiration, changes no drop, and only creates `data/` |
| `Action.DropStore.PurgeOldFolders` | src/app/action.js:16-38 | removes the folder and meta entry of exactly the expired folders; with no `data/` it does nothing |
| `Action.UploadThenDownload` | src/app/action.js:40-94 | saving files and then fetching the returned code gives back exactly the saved folder; after a failed save the folder under the drawn code still holds the files written before the failure |
| `Action.ExpiredDropIsNotFound` | src/app/action.js:16-65 | a drop whose deadline has passed is gone after a sweep, and fetching it returns nothing |
| `Page.InputOutcomeFor` | src/app/page.js:53-93 | no lookup unless the code has six characters; an invalid-key error unless it matches the pattern; then not found exactly when no folder exists, else that folder is downloaded |
| `Page.Home.HandleInputChange` | src/app/page.js:53-93 | the outcome and key error are `InputOutcomeFor` against the folders before the call; the store logs a lookup only for a code matching the pattern, and no drop changes; `data/` exists after a lookup and is untouched without one |
| `Page.Home.EnterCode` | src/app/page.js:241-249 | typed or pasted text, and the `?code=` parameter, is upper-cased, shown, and then gated like any code: the same outcome, key error and lookup, with `data/` created only by a lookup |
| `Page.Home.PressEnter` | src/app/page.js:251-255 | Enter handles the code already shown: the same outcome, key error and lookup as typing that code |
| `Page.KeyErrorShown` | src/app/page.js:54-89 | the field shows the invalid-key error exactly for six characters that fail the pattern, the no-files error exactly for a code without a folder, and no error otherwise |
| `Page.TotalSize` | src/app/page.js:105 | the summed size bounds every file's size and is zero exactly when every size is zero |
| `Page.SizeGate` | src/app/page.js:105-118 | `ParksUpload`, the test at line 107: without the bypass, a batch is parked exactly when its total exceeds 25,000,000, so a total of exactly 25,000,000 proceeds; with the bypass nothing is parked |
| `Page.OversizedFileParks` | src/app/page.js:105-107 | one file over the limit parks the whole batch |
| `Page.TtlHours` | src/app/page.js:120 | `saveFiles` gets 168 hours when "keep longer" is ticked and 2 otherwise |
| `Page.Home.HandleUpload` | src/app/page.js:95-124 | a parked batch becomes pending with the phrase reset and nothing saved; otherwise the batch is saved under a fresh code with the chosen retention, and only when the save succeeds is that code shown and the file list cleared |
| `Page.Home.Upload` | src/app/page.js:343 | the button does nothing while the list is empty; otherwise it parks the listed files or saves them exactly as `handleUpload` does |
| `Page.Home.HandleKeydown` | src/app/page.js:134-158 | keys change nothing unless a batch is pending; then the lower-cased key extends the phrase, and once the phrase contains "confirm" the pending batch is saved past the size check; pending and phrase are cleared only when that save succeeds |
| `Page.Extension` | src/app/page.js:276-277 | the popped part is the dot-free text after the last `.`, or the whole name when there is none |
| `Page.Stem` | src/app/page.js:276-278 | the joined part is the text before the last `.`, or empty when there is no dot |
| `Page.DottedCandidate` | src/app/page.js:276-278 | a name `base.ext` is renamed to `base_k.ext` around its last dot |
| `Page.DotlessCandidate` | src/app/page.js:276-278 | a dot-free name `n` is renamed to `_k.n` |
| `Page.SuffixedInjective` | src/app/page.js:278 | with base and extension fixed, the template `base_k.ext` gives different names for different counters |
| `Page.StemExtensionLength` | src/app/page.js:276-277 | the base and the extension together are never longer than the name they come from |
| `Page.CandidateLonger` | src/app/page.js:276-278 | every renamed form `base_k.ext` is longer than the name it replaces |
| `Page.CandidateInjective` | src/app/page.js:273-280 | different clash counts give different names, and no renamed form equals the original |
| `Page.ClashesBounded` | src/app/page.js:273-280 | the loop can clash at most once per listed name |
| `Page.RenameOnDrop` | src/app/page.js:273-280 | the result is not in the list; with no clash it is the original name; otherwise it is `base_k.ext` for the least `k >= 1` not listed, with `k` at most the list length |
| `Page.RenamingUnique` | src/app/page.js:271-283 | the rename result depends only on the listed names and the dropped name |
| `Page.SameBatchNamesCollide` | src/app/page.js:271-283 | two files of one batch with the same name get the same new name, because other files of the batch are not checked |
| `Page.Home.OnDrop` | src/app/page.js:271-284 | the renamed batch is appended after the existing files in order, each file keeping its size and data |
| `Page.Without` | src/app/page.js:330 | removing index `i` deletes exactly that element and keeps the others in order; an index past the end changes nothing |
| `Page.Home.RemoveAt` | src/app/page.js:330 | the remove icon of row `i` leaves the list without its `i`-th file |
| `Page.Home.SetKeepLonger` | src/app/page.js:267 | the checkbox sets the retention choice |
| `Page.Home.constructor` | src/app/page.js:21-28 | the page starts with an empty code, no key error, no files, no pending batch and an empty phrase |
| `Report.ValidateCode` | src/app/components/modals/report.js:14 | the code field is valid exactly when it matches `^[A-Z0-9]{6}$` |
| `Report.ValidateReason` | src/app/components/modals/report.js:15 | the reason field errors exactly when it is empty |
| `Report.ValidateAdditional` | src/app/components/modals/report.js:16 | the free text errors exactly when the reason is the "other" label and the text is empty; any other reason never errors |
| `Report.FormValidIff` | src/app/components/modals/report.js:71 | the submit button is enabled exactly for a pattern-matching code, a selected reason, and free text whenever the reason is "other" |
| `Report.MailReason` | src/app/components/modals/report.js:25 | the mail carries the free text when the reason is "other" and the selected reason otherwise |
| `Report.ValidFormMailsReason` | src/app/components/modals/report.js:13-27 | a form that passes validation mails a well-formed code and a non-empty reason |
| `Report.CodeFieldValue` | src/app/components/modals/report.js:35-37 | the stored code is the input upper-cased, character by character |
| `Report.CodeFieldStable` | src/app/components/modals/report.js:35-37 | upper-casing the stored code again changes nothing |
| `Report.TypedCodeValidIff` | src/app/components/modals/report.js:14-37 | for ASCII input, the stored code passes validation exactly when six ASCII letters or digits were typed, in any case |
| `LocaleRequest.AcceptLanguage` | src/i18n/request.js:11 | an absent or empty header reads as `en`; otherwise the header is used as it is |
| `LocaleRequest.PreferredLocale` | src/i18n/request.js:11-12 | the locale is the prefix of the header text that stops at the end or at the first `,` or `-`, and is `en` without a header |
| `LocaleRequest.Import` | src/i18n/request.js:16 | importing a locale fails with `MODULE_NOT_FOUND` exactly when it has no file, and yields the messages of a file that loads |
| `LocaleRequest.ResolveConfig` | src/i18n/request.js:10-34 | a loadable preferred locale is returned with its own messages; a missing one falls back to `en`; any other load error is rethrown; a returned locale always comes with its own file's messages |
| `LocaleRequest.FallsBackToEnglish` | src/i18n/request.js:21-29 | with no file for the preferred locale and a loadable English file, the request is served in English |
| `LocaleRequest.QualityValueLocale` | src/i18n/request.js:11-12 | the header `de;q=0.9` has neither `,` nor `-`, so the whole text is taken as the locale |
| `LocaleRequest.QualityValueDefeatsMatch` | src/i18n/request.js:11-28 | the header `de;q=0.9` is served in English even when German messages exist, because quality values are not stripped |
| `LocaleRequest.RegionalTagLocale` | src/i18n/request.js:12 | the header `de-AT,de;q=0.9` yields the locale `de` |
| `LocaleRequest.RegionalTagUsesLanguage` | src/i18n/request.js:12-20 | the header `de-AT,de;q=0.9` is served from the `de` file |

## Left out

- The zip archive is left out. `getFiles` builds it with `archiver` (DEFLATE at level 1), a foreign library, so the model returns the folder's file map in its place.
- Filesystem details are left out: `path.join`, `process.cwd` and the decimal text in `.meta` files. Apart from `""`, `.` and `..`, which resolve to a directory, the model keeps file names as plain keys of the folder. In the source, `path.join(folderPath, file.name)` (`src/app/action.js:88`) follows path separators: a name such as `a/b` makes `writeFileSync` throw `ENOENT`, a failing write like the `EISDIR` case, and a name such as `../<code>.meta` overwrites another drop's meta entry. The model does neither.
- Action.DropStore.GetFiles: the argument is treated as a folder name only. `getFiles` is a server action that anyone can call and it does no syntax check, so `""` and `.` resolve to `data/` itself (just created at src/app/action.js:44-45) and return a zip of every drop and meta file, `..` returns a zip of the working directory, and `<code>.meta` names a file rather than a folder. The model returns nothing for all of these; the page only ever passes pattern-matching codes.
- The sweep reads `data/` with `readdirSync`, which also lists the `<code>.meta` entries. The sweep skips those because no `<code>.meta.meta` exists, so the model iterates over folders only.
- A meta entry that `parseInt` reads as NaN is modelled as `Unparsable`, and it is never purged. The model does not parse the entry's text.
- Dates are left out. `setHours` works in local time and is subject to DST; the model uses `now + hours * 3600000` on integer milliseconds.
- `Math.random` is left out; its values become supplied draws.
- Action.DropStore.SaveFiles: requires that some pass of the retry loop draws a code with no folder. The source loops forever otherwise, so this is the random source's liveness assumption, not a demand on callers.
- Concurrency is left out: promise and async plumbing, React's batching of state updates, the one-minute `setInterval` sweep timer, and sweeps racing with `getFiles`/`saveFiles`. Operations run one after another.
- Metrics are left out. `updateMetric` is not defined in `src/app/action.js`, so it is not part of this model, and the browser/OS/language sniffing only feeds it.
- Display-only behaviour is left out: notifications, the Blob download link, the QR code, `navigator.share`, and the size display with `log2`/`pow`/`toFixed`.
- The inputs' `maxLength={6}` stops typing past six characters and caps the text the browser inserts on a paste; the `onPaste` handler and `?code=` read their text unlimited. The model accepts text of any length.
- The `loading` flag is left out. It disables the code field (`src/app/page.js:258`) while a request runs. `handleUpload` sets it (`src/app/page.js:96`) before `await saveFiles`, and a save that throws skips `setLoading(false)`, so after such a save the code field stays disabled until the page reloads. The flag is also passed to the Dropzone (`src/app/page.js:285`), which then stays in its loading state as well. The model's `EnterCode`, `PressEnter` and `OnDrop` still accept input then.
- Text.Upper: only ASCII letters change case. JavaScript also maps other letters, some into several characters.
- Page.InputOutcomeFor: lengths are counted in characters, not UTF-16 code units. JavaScript's `newCode.length === 6` counts code units, so `ABCD😀` has length 6 and gets the invalid-key error, while the model counts 5 characters and skips it.
- Text.Lower: only ASCII letters change case.
- Codes.UpperIsCodeIff: holds for ASCII input only. JavaScript upper-cases `ſ` to `S`, `ı` to `I` and `ﬀ` to `FF`, so texts such as `ſſſſſſ` or `ﬀﬀﬀ` also become six-character codes that reach `getFiles`.
- Report.TypedCodeValidIff: holds for ASCII input only, for the same reason: non-ASCII letters that upper-case into `[A-Z]` also yield a valid stored code.
- Page.Home.EnterCode: covers typing, pasting and the `?code=` parameter alike, one handler call each. The effect for `?code=` runs only when the parameter is non-empty. A paste is modelled only by its `onPaste` handler: that handler does not call `preventDefault` (`src/app/page.js:246-250`), so the browser still inserts the clipboard text, capped at six characters, and the `onChange` this fires handles the field's new text a second time. Pasting `abcdefgh` into the empty field can therefore end in a lookup of `ABCDEF` with `ABCDEF` shown, which a single `EnterCode` of the clipboard text does not capture.
- The document `keydown` listener also fires for keys typed into the code field. The model treats keydown and code entry as separate events.
- The serialised files' `type` and `lastModified` are dropped. A file keeps its name, size and data.
- A cleared reason select is `null` and is treated as the empty string. Both are falsy, so the validators reach the same verdict.
- Translated labels enter as the parameter `otherLabel`.
- The mail's `mailto:` subject and body are not composed.
- `timeZonesByLang` in `src/i18n/request.js` is never used.
- `src/app/layout.js`, `src/app/manifest.js`, `next.config.mjs`, `src/app/components/modals/uploadConfirm.js` and `constants.js` are not part of this model. One display inconsistency is noted but not modelled. `constants.js:5` sets `EXTEND_DURATION` to `7 * 24`, and `src/app/components/modals/uploadConfirm.js:58` multiplies it by 24 again, so that modal would show a deadline 4032 hours (168 days) away. The page uses its own `EXTEND_DURATION = 7` (`src/app/page.js:47`), so the retention actually saved is 168 hours.

=== FILE: action.dfy ===
/**
 The server side of a drop: the `data/` directory seen as two maps, one from a
 code to its folder (file name to bytes) and one from a code to the expiration
 read from its `<code>.meta` entry; code generation; saving a batch of files;
 fetching a folder; and sweeping expired folders.
 */
module Action {
  import opened Codes
  import opened Wrappers

  newtype byte = x: int | 0 <= x < 256

  /** A file as the client serialises it: its name, its declared size in bytes and its contents. */
  datatype File = File(name: string, size: nat, data: seq<byte>)

  /** A drop's folder: file name to contents. It also stands for the zip built from that folder. */
  type Folder = map<string, seq<byte>>

  /** A `<code>.meta` entry after `parseInt`: milliseconds since the epoch, or NaN. */
  datatype Expiry = At(ms: int) | Unparsable

  const MsPerHour: int := 60 * 60 * 1000

  const DefaultExpiresInHours: int := 2

  /** `generateRandomCode`: one alphabet symbol per draw, six times. */
  method GenerateRandomCode(draws: seq<Draw>) returns (code: string)
    requires |draws| == CodeLength
    ensures IsCode(code)
    ensures |code| == CodeLength && forall i :: 0 <= i < CodeLength ==> code[i] == Alphabet[draws[i]]
    ensures code == Spell(draws)
  {
    AlphabetChars();
    code := "";
    for i := 0 to CodeLength
      invariant |code| == i
      invariant forall j :: 0 <= j < i ==> code[j] == Alphabet[draws[j]]
    {
      code := code + [Alphabet[draws[i]]];
    }
  }

  /** The code of the `a`-th pass of the retry loop, which consumes draws `6a` to `6a + 5`. */
  function Attempt(draws: seq<Draw>, a: nat): (code: string)
    requires CodeLength * a + CodeLength <= |draws|
    ensures IsCode(code)
  {
    Spell(draws[CodeLength * a..CodeLength * a + CodeLength])
  }

  /** The folder left by writing `files` one after another into an empty folder. */
  function FolderOf(files: seq<File>): Folder
  {
    if files == [] then map[]
    else FolderOf(files[..|files| - 1])[files[|files| - 1].name := files[|files| - 1].data]
  }

  /**
   `path.join(folderPath, name)` names a directory rather than a file: the
   folder itself for `""` and `"."`, and `data/` for `".."`. Writing there
   throws `EISDIR`.
   */
  predicate NamesDirectory(name: string)
  {
    name == "" || name == "." || name == ".."
  }

  /** The error `writeFileSync` throws for a name that resolves to a directory. */
  datatype WriteError = IsADirectory(name: string)

  /** How many files of the batch are written before the first one whose name names a directory. */
  function WrittenCount(files: seq<File>): (n: nat)
    ensures n <= |files|
    ensures forall i :: 0 <= i < n ==> !NamesDirectory(files[i].name)
    ensures n < |files| ==> NamesDirectory(files[n].name)
  {
    if files == [] || NamesDirectory(files[0].name) then 0 else 1 + WrittenCount(files[1..])
  }

  /** The folder a save leaves: the files written before the first failing write. */
  function SavedFolder(files: seq<File>): Folder
  {
    FolderOf(files[..WrittenCount(files)])
  }

  /** When no write fails, the saved folder holds the whole batch. */
  lemma SavedFolderComplete(files: seq<File>)
    requires WrittenCount(files) == |files|
    ensures SavedFolder(files) == FolderOf(files)
  {
    assert files[..|files|] == files;
  }

  /** The folder holds a file under exactly the names of the files written. */
  lemma {:induction false} FolderOfNames(files: seq<File>)
    ensures FolderOf(files).Keys == set f | f in files :: f.name
  {
    if files != [] {
      var init := files[..|files| - 1];
      FolderOfNames(init);
      assert forall f :: f in files <==> f in init || f == files[|files| - 1];
    }
  }

  /** Writing one more file updates the folder at that file's name. */
  lemma FolderOfSnoc(files: seq<File>, i: nat)
    requires i < |files|
    ensures FolderOf(files[..i + 1]) == FolderOf(files[..i])[files[i].name := files[i].data]
  {
    assert files[..i + 1][..i] == files[..i];
  }

  /** A name written several times holds the data of its last write. */
  lemma {:induction false} FolderOfLastWins(files: seq<File>, i: nat)
    requires i < |files|
    requires forall j :: i < j < |files| ==> files[j].name != files[i].name
    ensures files[i].name in FolderOf(files)
    ensures FolderOf(files)[files[i].name] == files[i].data
  {
    if i < |files| - 1 {
      FolderOfLastWins(files[..|files| - 1], i);
    }
  }

  /** The sweep's test for one entry: a meta entry exists and its time is strictly before `now`. */
  predicate IsExpired(meta: map<string, Expiry>, code: string, now: int)
  {
    code in meta && meta[code].At? && meta[code].ms < now
  }

  /** The folders one sweep at time `now` removes. */
  function ExpiredCodes(folders: map<string, Folder>, meta: map<string, Expiry>, now: int): (expired: set<string>)
    ensures expired <= folders.Keys
    ensures forall c :: c in expired <==> c in folders && IsExpired(meta, c, now)
  {
    set c | c in folders && IsExpired(meta, c, now)
  }

  /** A sweep keeps a folder exactly when it has no meta entry, an unparsable one, or one not before `now`. */
  lemma PurgeKeeps(folders: map<string, Folder>, meta: map<string, Expiry>, now: int, c: string)
    requires c in folders
    ensures var kept := folders - ExpiredCodes(folders, meta, now);
      (c in kept <==> !IsExpired(meta, c, now)) && (c in kept ==> kept[c] == folders[c])
  {
  }

  /** A second sweep at the same `now` finds nothing left to remove. */
  lemma {:induction false} PurgeIdempotent(folders: map<string, Folder>, meta: map<string, Expiry>, now: int)
    ensures var expired := ExpiredCodes(folders, meta, now);
      var again := ExpiredCodes(folders - expired, meta - expired, now);
      again == {} && (folders - expired) - again == folders - expired && (meta - expired) - again == meta - expired
  {
  }

  /** A drop saved with deadline `deadline` is removed by any sweep after it. */
  lemma SweepRemovesPastDeadline(folders: map<string, Folder>, meta: map<string, Expiry>, code: string, folder: Folder, deadline: int, now: int)
    requires deadline < now
    ensures var f, m := folders[code := folder], meta[code := At(deadline)];
      code in ExpiredCodes(f, m, now) && code !in f - ExpiredCodes(f, m, now)
  {
  }

  /** `code` is the first code of the retry loop that has no folder. */
  ghost predicate FirstFreshCode(folders: map<string, Folder>, draws: seq<Draw>, code: string)
  {
    exists a: nat :: && CodeLength * a + CodeLength <= |draws| && code == Attempt(draws, a)
                     && code !in folders
                     && forall b: nat :: b < a ==> Attempt(draws, b) in folders
  }

  /**
   The `data/` directory. `rootExists` says whether the directory itself is
   there; `folders` and `meta` are its `<code>/` and `<code>.meta` entries.
   `lookups` records the codes `getFiles` was asked for, so that callers can
   state when no lookup happened.
   */
  class DropStore {
    var rootExists: bool
    var folders: map<string, Folder>
    var meta: map<string, Expiry>
    ghost var lookups: seq<string>

    /** Nothing lives under a root that does not exist. */
    ghost predicate Valid()
      reads this
    {
      !rootExists ==> folders == map[] && meta == map[]
    }

    constructor ()
      ensures Valid() && !rootExists
      ensures folders == map[] && meta == map[] && lookups == []
    {
      rootExists, folders, meta, lookups := false, map[], map[], [];
    }

    /** Some pass of the retry loop draws a code with no folder: the random source does not starve the loop. */
    ghost predicate YieldsFreshCode(draws: seq<Draw>)
      reads this
    {
      exists a: nat :: CodeLength * a + CodeLength <= |draws| && Attempt(draws, a) !in folders
    }

    /** The `do ... while` loop of `saveFiles`: draw codes until one has no folder. */
    method DrawFreshCode(draws: seq<Draw>) returns (code: string)
      requires YieldsFreshCode(draws)
      ensures IsCode(code) && code !in folders
      ensures FirstFreshCode(folders, draws, code)
    {
      ghost var free: nat :| CodeLength * free + CodeLength <= |draws| && Attempt(draws, free) !in folders;
      var attempt: nat := 0;
      code := GenerateRandomCode(draws[0..CodeLength]);
      while code in folders
        invariant attempt <= free
        invariant code == Attempt(draws, attempt)
        invariant forall b: nat :: b < attempt ==> Attempt(draws, b) in folders
        decreases free - attempt
      {
        attempt := attempt + 1;
        code := GenerateRandomCode(draws[CodeLength * attempt..CodeLength * attempt + CodeLength]);
      }
    }

    /**
     The `for` loop of `saveFiles`: write each file, in order, into the new
     folder `code`, stopping at the first file whose write throws.
     */
    method WriteFiles(code: string, files: seq<File>) returns (failure: Option<WriteError>)
      requires code in folders && folders[code] == map[]
      modifies this`folders
      ensures folders == old(folders)[code := SavedFolder(files)]
      ensures failure.None? <==> WrittenCount(files) == |files|
      ensures failure.Some? ==> failure.value == IsADirectory(files[WrittenCount(files)].name)
    {
      var i := 0;
      while i < |files| && !NamesDirectory(files[i].name)
        invariant i <= WrittenCount(files)
        invariant folders == old(folders)[code := FolderOf(files[..i])]
      {
        FolderOfSnoc(files, i);
        folders := folders[code := folders[code][files[i].name := files[i].data]];
        i := i + 1;
      }
      if i < |files| {
        failure := Some(IsADirectory(files[i].name));
      } else {
        failure := None;
      }
    }

    /**
     `saveFiles`: draw a code with no folder, create the root and the folder,
     write the meta entry, then write each file in order. `failure` is what
     the call throws; the caller receives `code` only when there is none, but
     the folder, the meta entry and the files written before the failure stay.
     */
    method SaveFiles(files: seq<File>, now: int, draws: seq<Draw>, expiresInHours: int := DefaultExpiresInHours)
      returns (code: string, failure: Option<WriteError>)
      requires Valid() && YieldsFreshCode(draws)
      modifies this
      ensures Valid() && rootExists
      ensures IsCode(code) && code !in old(folders)
      ensures FirstFreshCode(old(folders), draws, code)
      ensures folders == old(folders)[code := SavedFolder(files)]
      ensures meta == old(meta)[code := At(now + expiresInHours * MsPerHour)]
      ensures failure.None? <==> WrittenCount(files) == |files|
      ensures failure.Some? ==> failure.value == IsADirectory(files[WrittenCount(files)].name)
      ensures lookups == old(lookups)
    {
      code := DrawFreshCode(draws);
      rootExists := true;
      if code !in folders {
        folders := folders[code := map[]];
      }
      meta := meta[code := At(now + expiresInHours * MsPerHour)];
      failure := WriteFiles(code, files);
    }

    /** `getFiles`: create the root if missing, then hand back the folder, or `null` when there is none. */
    method GetFiles(code: string) returns (archive: Option<Folder>)
      requires Valid()
      modifies this
      ensures Valid() && rootExists
      ensures folders == old(folders) && meta == old(meta)
      ensures lookups == old(lookups) + [code]
      ensures archive.None? <==> code !in folders
      ensures archive.Some? ==> archive.value == folders[code]
    {
      lookups := lookups + [code];
      if !rootExists {
        rootExists := true;
      }
      if code in folders {
        archive := Some(folders[code]);
      } else {
        archive := None;
      }
    }

    /** `purgeOldFolders`: visit every folder and remove it with its meta entry when that entry is expired. */
    method PurgeOldFolders(now: int)
      requires Valid()
      modifies this
      ensures Valid()
      ensures rootExists == old(rootExists) && lookups == old(lookups)
      ensures folders == old(folders) - ExpiredCodes(old(folders), old(meta), now)
      ensures meta == old(meta) - ExpiredCodes(old(folders), old(meta), now)
    {
      if rootExists {
        ghost var expired := ExpiredCodes(folders, meta, now);
        var entries := folders.Keys;
        while entries != {}
          invariant entries <= old(folders).Keys
          invariant folders == old(folders) - (expired - entries)
          invariant meta == old(meta) - (expired - entries)
          invariant rootExists && lookups == old(lookups)
          decreases entries
        {
          var c :| c in entries;
          if c in meta && meta[c].At? && meta[c].ms < now {
            folders := folders - {c};
            meta := meta - {c};
          }
          entries := entries - {c};
        }
      }
    }
  }

  /**
   Saving and then fetching with the returned code gives back the saved names
   and contents; after a failed save, the folder under the drawn code holds
   the files written before the failure.
   */
  method UploadThenDownload(store: DropStore, files: seq<File>, now: int, draws: seq<Draw>)
    returns (code: string, failure: Option<WriteError>, archive: Option<Folder>)
    requires store.Valid() && store.YieldsFreshCode(draws)
    modifies store
    ensures IsCode(code)
    ensures archive == Some(SavedFolder(files))
    ensures failure.None? ==> archive == Some(FolderOf(files))
  {
    code, failure := store.SaveFiles(files, now, draws);
    archive := store.GetFiles(code);
    if failure.None? {
      SavedFolderComplete(files);
    }
  }

  /** A drop whose deadline has passed is gone after a sweep, and a lookup then finds nothing. */
  method ExpiredDropIsNotFound(store: DropStore, files: seq<File>, now: int, draws: seq<Draw>, hours: int, later: int)
    returns (archive: Option<Folder>)
    requires store.Valid() && store.YieldsFreshCode(draws)
    requires now + hours * MsPerHour < later
    modifies store
    ensures archive == None
  {
    var code, _ := store.SaveFiles(files, now, draws, hours);
    store.PurgeOldFolders(later);
    archive := store.GetFiles(code);
  }
}

=== FILE: codes.dfy ===
/**
 Drop codes: six characters from `A-Z0-9`, the pattern `^[A-Z0-9]{6}$` that
 the client, the report form and the generator all share.
 */
module Codes {
  import opened Text

  /** The generator's 36-symbol alphabet, upper-case letters then digits. */
  const Alphabet: string := "ABCDEFGHIJKLMNOPQRSTUVWXYZ0123456789"

  const CodeLength: nat := 6

  /** One index into the alphabet, as `Math.floor(Math.random() * 36)` yields. */
  type Draw = i: int | 0 <= i < 36

  /** The character class `[A-Z0-9]`. */
  predicate IsCodeChar(c: char)
  {
    'A' <= c <= 'Z' || '0' <= c <= '9'
  }

  /** The full-string match of `^[A-Z0-9]{6}$`. */
  predicate IsCode(s: string)
  {
    |s| == CodeLength && forall i :: 0 <= i < |s| ==> IsCodeChar(s[i])
  }

  /** The alphabet is `A`..`Z` at positions 0..25 and `0`..`9` at positions 26..35. */
  lemma AlphabetAt(d: Draw)
    ensures Alphabet[d] == if d < 26 then ('A' as int + d) as char else ('0' as int + d - 26) as char
  {
  }

  /** Every symbol of the alphabet is in `[A-Z0-9]`. */
  lemma AlphabetChars()
    ensures forall d: Draw :: IsCodeChar(Alphabet[d])
  {
    forall d: Draw ensures IsCodeChar(Alphabet[d]) {
      AlphabetAt(d);
    }
  }

  /** A code is exactly six symbols of the generator's alphabet. */
  lemma CodeOverAlphabet(s: string)
    ensures IsCode(s) <==> |s| == CodeLength && forall i :: 0 <= i < |s| ==> s[i] in Alphabet
  {
    forall i | 0 <= i < |s| {
      AlphabetIsCodeClass(s[i]);
    }
  }

  /** The position of a code character in the alphabet. */
  function IndexOf(c: char): (d: Draw)
    requires IsCodeChar(c)
    ensures Alphabet[d] == c
  {
    AlphabetAt(if 'A' <= c <= 'Z' then c as int - 'A' as int else 26 + (c as int - '0' as int));
    if 'A' <= c <= 'Z' then c as int - 'A' as int else 26 + (c as int - '0' as int)
  }

  /** The alphabet holds exactly the characters of `[A-Z0-9]`. */
  lemma AlphabetIsCodeClass(c: char)
    ensures c in Alphabet <==> IsCodeChar(c)
  {
    if IsCodeChar(c) {
      assert Alphabet[IndexOf(c)] == c;
    } else {
      AlphabetChars();
    }
  }

  /** The code spelled by six draws. */
  function Spell(draws: seq<Draw>): (code: string)
    requires |draws| == CodeLength
    ensures IsCode(code)
    ensures forall i :: 0 <= i < CodeLength ==> code[i] == Alphabet[draws[i]]
  {
    AlphabetChars();
    seq(CodeLength, i requires 0 <= i < CodeLength => Alphabet[draws[i]])
  }

  /** Every code matching the pattern can be generated: some six draws spell it. */
  lemma EveryCodeIsSpelled(code: string)
    requires IsCode(code)
    ensures exists draws: seq<Draw> :: |draws| == CodeLength && Spell(draws) == code
  {
    var draws: seq<Draw> := seq(CodeLength, i requires 0 <= i < CodeLength => IndexOf(code[i]));
    assert Spell(draws) == code;
  }

  /** An ASCII letter of either case, or a digit. */
  predicate IsAsciiAlnum(c: char)
  {
    'a' <= c <= 'z' || 'A' <= c <= 'Z' || '0' <= c <= '9'
  }

  /**
   Upper-casing what the user typed yields a code exactly when the input is six
   ASCII letters or digits, in any mix of cases.
   */
  lemma UpperIsCodeIff(s: string)
    ensures IsCode(Upper(s)) <==> |s| == CodeLength && forall i :: 0 <= i < |s| ==> IsAsciiAlnum(s[i])
  {
    var u := Upper(s);
    if IsCode(u) {
      forall i | 0 <= i < |s| ensures IsAsciiAlnum(s[i]) {
        assert IsCodeChar(u[i]);
      }
    }
  }
}

=== FILE: page.dfy ===
/**
 The upload/download page: the code-entry gate in front of `getFiles`, the
 25 MB gate in front of `saveFiles` with its typed "confirm" bypass, the
 retention choice, and the file list with its rename-on-drop and
 remove-by-index.
 */
module Page {
  import opened Text
  import opened Codes
  import opened Wrappers
  import opened Action

  const SecretPhrase: string := "confirm"

  /** 25 MB, in decimal bytes. */
  const MaxFileSize: nat := 25 * 1000 * 1000

  /** Hours a drop is kept by default. */
  const DefaultDuration: int := 2

  /** Days a drop is kept when "keep longer" is ticked. */
  const ExtendDuration: int := 7

  /** Where `handleInputChange` ends for one code. */
  datatype InputOutcome = Skipped | InvalidKey | NoFilesFound | Downloaded(archive: Folder)

  /** The error shown under the code field; `NoKeyError` is the source's `false`. */
  datatype KeyError = NoKeyError | InvalidKeyMessage | NoFilesFoundMessage

  /**
   The outcome of `handleInputChange(newCode)` against the folders on the
   server: nothing unless the code has six characters, a rejection without a
   lookup unless it matches the code pattern, then found or not found.
   */
  function InputOutcomeFor(newCode: string, folders: map<string, Folder>): (r: InputOutcome)
    ensures r.Skipped? <==> |newCode| != CodeLength
    ensures r.InvalidKey? <==> |newCode| == CodeLength && !IsCode(newCode)
    ensures r.NoFilesFound? <==> IsCode(newCode) && newCode !in folders
    ensures r.Downloaded? <==> IsCode(newCode) && newCode in folders
    ensures r.Downloaded? ==> r.archive == folders[newCode]
  {
    if |newCode| != CodeLength then Skipped
    else if !IsCode(newCode) then InvalidKey
    else if newCode !in folders then NoFilesFound
    else Downloaded(folders[newCode])
  }

  /** The error `handleInputChange` leaves under the field for each outcome. */
  function KeyErrorOf(outcome: InputOutcome): KeyError
  {
    match outcome
    case InvalidKey => InvalidKeyMessage
    case NoFilesFound => NoFilesFoundMessage
    case _ => NoKeyError
  }

  /**
   The error under the code field after `handleInputChange`: the invalid-key
   message for a six-character text that fails the pattern, the no-files
   message for a code without a folder, and none otherwise.
   */
  lemma KeyErrorShown(newCode: string, folders: map<string, Folder>)
    ensures var e := KeyErrorOf(InputOutcomeFor(newCode, folders));
      && (e == InvalidKeyMessage <==> |newCode| == CodeLength && !IsCode(newCode))
      && (e == NoFilesFoundMessage <==> IsCode(newCode) && newCode !in folders)
      && (e == NoKeyError <==> |newCode| != CodeLength || (IsCode(newCode) && newCode in folders))
  {
  }

  /** The `reduce` over the declared sizes of a batch. */
  function TotalSize(files: seq<File>): (total: nat)
    ensures forall i :: 0 <= i < |files| ==> files[i].size <= total
    ensures total == 0 <==> forall i :: 0 <= i < |files| ==> files[i].size == 0
  {
    if files == [] then 0 else files[0].size + TotalSize(files[1..])
  }

  /** `handleUpload` parks the batch instead of saving it. */
  predicate ParksUpload(files: seq<File>, skipSizeCheck: bool)
  {
    !skipSizeCheck && TotalSize(files) > MaxFileSize
  }

  /** Without the bypass, a batch is parked exactly when its total exceeds 25,000,000 bytes, so that total itself passes. */
  lemma SizeGate(files: seq<File>)
    ensures ParksUpload(files, false) <==> TotalSize(files) > 25000000
    ensures TotalSize(files) == 25000000 ==> !ParksUpload(files, false)
    ensures !ParksUpload(files, true)
  {
  }

  /** One file over the limit parks the whole batch. */
  lemma OversizedFileParks(files: seq<File>, i: nat)
    requires i < |files| && files[i].size > MaxFileSize
    ensures ParksUpload(files, false)
  {
  }

  /** The retention passed to `saveFiles`, in hours. */
  function TtlHours(keepLonger: bool): (hours: int)
    ensures keepLonger ==> hours == 168
    ensures !keepLonger ==> hours == 2
  {
    if keepLonger then ExtendDuration * 24 else DefaultDuration
  }

  /** The names in the file list, which the rename loop tests with `files.some(...)`. */
  function Names(files: seq<File>): (names: seq<string>)
    ensures |names| == |files|
    ensures forall i :: 0 <= i < |files| ==> names[i] == files[i].name
  {
    if files == [] then [] else [files[0].name] + Names(files[1..])
  }

  /** `nameParts.pop()`: the text after the last `.`, or the whole name when it has none. */
  function Extension(name: string): (ext: string)
    ensures |ext| <= |name| && ext == name[|name| - |ext|..]
    ensures '.' !in ext
    ensures |ext| < |name| ==> name[|name| - |ext| - 1] == '.'
  {
    if name == [] || name[|name| - 1] == '.' then []
    else Extension(name[..|name| - 1]) + [name[|name| - 1]]
  }

  /** `nameParts.join('.')` after the pop: the text before the last `.`, or empty when there is none. */
  function Stem(name: string): (base: string)
    ensures |Extension(name)| < |name| ==> name == base + "." + Extension(name)
    ensures |Extension(name)| == |name| ==> base == []
  {
    var ext := Extension(name);
    if |ext| == |name| then [] else name[..|name| - |ext| - 1]
  }

  /** The name the rename loop holds after `k` clashes: the original, then `base_k.ext`. */
  function Candidate(name: string, k: nat): string
  {
    if k == 0 then name else Suffixed(Stem(name), k, Extension(name))
  }

  /** The template `${base}_${counter}.${extension}`. */
  function Suffixed(base: string, k: nat, ext: string): string
  {
    base + "_" + Decimal(k) + "." + ext
  }

  /** A name with a dot is renamed around its last dot: `a.b.txt` becomes `a.b_k.txt`. */
  lemma {:induction false} DottedCandidate(base: string, ext: string, k: nat)
    requires '.' !in ext && k > 0
    ensures Candidate(base + "." + ext, k) == base + "_" + Decimal(k) + "." + ext
  {
    var name := base + "." + ext;
    ExtensionOfDotted(base, ext);
    assert Stem(name) == base by {
      assert name == Stem(name) + "." + ext;
      assert name[..|base|] == base;
    }
  }

  lemma {:induction false} ExtensionOfDotted(base: string, ext: string)
    requires '.' !in ext
    ensures Extension(base + "." + ext) == ext
    decreases |ext|
  {
    var name := base + "." + ext;
    if ext == [] {
      assert name[|name| - 1] == '.';
    } else {
      var shorter := ext[..|ext| - 1];
      assert name[..|name| - 1] == base + "." + shorter;
      ExtensionOfDotted(base, shorter);
      assert ext == shorter + [ext[|ext| - 1]];
    }
  }

  /** A name without a dot gets an empty base and keeps the whole name as extension: `README` becomes `_k.README`. */
  lemma DotlessCandidate(name: string, k: nat)
    requires '.' !in name && k > 0
    ensures Candidate(name, k) == "_" + Decimal(k) + "." + name
  {
    ExtensionOfDotless(name);
    assert Stem(name) == [];
  }

  lemma {:induction false} ExtensionOfDotless(name: string)
    requires '.' !in name
    ensures Extension(name) == name
  {
    if name != [] {
      var init := name[..|name| - 1];
      assert forall c :: c in init ==> c in name;
      ExtensionOfDotless(init);
      assert name == init + [name[|name| - 1]];
    }
  }

  /** The counter sits between the fixed `base_` and `.ext`, so different counters give different names. */
  lemma SuffixedInjective(base: string, ext: string, j: nat, k: nat)
    requires Suffixed(base, j, ext) == Suffixed(base, k, ext)
    ensures j == k
  {
    var c, d := Suffixed(base, j, ext), Suffixed(base, k, ext);
    assert c == (base + "_") + Decimal(j) + ("." + ext);
    assert d == (base + "_") + Decimal(k) + ("." + ext);
    assert c[|base| + 1..|c| - |ext| - 1] == Decimal(j);
    assert d[|base| + 1..|d| - |ext| - 1] == Decimal(k);
    DecimalInjective(j, k);
  }

  /** Base and extension together are never longer than the name. */
  lemma StemExtensionLength(name: string)
    ensures |Stem(name)| + |Extension(name)| <= |name|
  {
  }

  /** Every renamed form is longer than the original name. */
  lemma CandidateLonger(name: string, k: nat)
    requires k > 0
    ensures |Candidate(name, k)| > |name|
  {
    StemExtensionLength(name);
  }

  /** Different clash counts give different names. */
  lemma CandidateInjective(name: string, j: nat, k: nat)
    requires Candidate(name, j) == Candidate(name, k)
    ensures j == k
  {
    StemExtensionLength(name);
    if j != 0 && k != 0 {
      SuffixedInjective(Stem(name), Extension(name), j, k);
    }
  }

  /**
   `fileName` is what the rename loop yields for `name` against the listed
   `names`: the first of `name`, `base_1.ext`, `base_2.ext`, ... that is not
   listed, reached after at most `|names|` clashes.
   */
  ghost predicate IsRenaming(names: seq<string>, name: string, fileName: string)
  {
    exists k: nat :: k <= |names| && fileName == Candidate(name, k) && fileName !in names
                     && forall j: nat :: j < k ==> Candidate(name, j) in names
  }

  lemma {:induction false} DistinctCard<T>(s: seq<T>)
    ensures |set x | x in s| <= |s|
  {
    if s != [] {
      DistinctCard(s[1..]);
      assert (set x | x in s) == {s[0]} + set x | x in s[1..];
    }
  }

  lemma {:induction false} SubsetCard<T>(a: set<T>, b: set<T>)
    requires a <= b
    ensures |a| <= |b|
    decreases a
  {
    if a != {} {
      var x :| x in a;
      SubsetCard(a - {x}, b - {x});
    }
  }

  /** The first `n` values of `f`: the names the rename loop has tried after `n` clashes. */
  ghost function Image(f: nat -> string, n: nat): set<string>
  {
    if n == 0 then {} else Image(f, n - 1) + {f(n - 1)}
  }

  lemma {:induction false} ImageCard(f: nat -> string, n: nat)
    requires forall i: nat, j: nat :: f(i) == f(j) ==> i == j
    ensures |Image(f, n)| == n
    ensures forall j: nat :: j >= n ==> f(j) !in Image(f, n)
  {
    if n > 0 {
      ImageCard(f, n - 1);
    }
  }

  lemma {:induction false} ImageListed(f: nat -> string, names: seq<string>, n: nat)
    requires forall j: nat :: j < n ==> f(j) in names
    ensures forall x :: x in Image(f, n) ==> x in names
  {
    if n > 0 {
      ImageListed(f, names, n - 1);
    }
  }

  /** The loop can clash at most once per listed name: `n` clashes need `n` distinct listed names. */
  lemma ClashesBounded(names: seq<string>, name: string, n: nat)
    requires forall j: nat :: j < n ==> Candidate(name, j) in names
    ensures n <= |names|
  {
    var f := (k: nat) => Candidate(name, k);
    forall i: nat, j: nat | f(i) == f(j) ensures i == j {
      CandidateInjective(name, i, j);
    }
    ImageCard(f, n);
    ImageListed(f, names, n);
    SubsetCard(Image(f, n), set x | x in names);
    DistinctCard(names);
  }

  /** The `while` loop of `onDrop` for one dropped file. */
  method RenameOnDrop(names: seq<string>, name: string) returns (fileName: string)
    ensures fileName !in names
    ensures name !in names ==> fileName == name
    ensures IsRenaming(names, name, fileName)
  {
    fileName := name;
    var counter: nat := 1;
    while fileName in names
      invariant 1 <= counter <= |names| + 1
      invariant fileName == Candidate(name, counter - 1)
      invariant forall j: nat :: j < counter - 1 ==> Candidate(name, j) in names
      decreases |names| + 1 - counter
    {
      ClashesBounded(names, name, counter);
      fileName := Suffixed(Stem(name), counter, Extension(name));
      counter := counter + 1;
    }
    assert IsRenaming(names, name, Candidate(name, counter - 1));
  }

  /** The rename loop's result is determined by the listed names and the dropped name. */
  lemma RenamingUnique(names: seq<string>, name: string, a: string, b: string)
    requires IsRenaming(names, name, a) && IsRenaming(names, name, b)
    ensures a == b
  {
    var k1: nat :| k1 <= |names| && a == Candidate(name, k1) && a !in names
                   && forall j: nat :: j < k1 ==> Candidate(name, j) in names;
    var k2: nat :| k2 <= |names| && b == Candidate(name, k2) && b !in names
                   && forall j: nat :: j < k2 ==> Candidate(name, j) in names;
  }

  /** `files.filter((_, i) => i !== index)`. */
  function Without<T>(s: seq<T>, index: nat): (r: seq<T>)
    ensures |r| == if index < |s| then |s| - 1 else |s|
    ensures forall j :: 0 <= j < |r| && j < index ==> r[j] == s[j]
    ensures forall j :: index <= j < |r| ==> r[j] == s[j + 1]
  {
    if index < |s| then s[..index] + s[index + 1..] else s
  }

  /** The page's state. */
  class Home {
    var code: string
    var keyError: KeyError
    var files: seq<File>
    var keepLonger: bool
    var downloadCode: string
    var pendingFiles: Option<seq<File>>
    var userPhrase: string

    /** The typed phrase is empty whenever nothing is parked. */
    ghost predicate Valid()
      reads this
    {
      pendingFiles.None? ==> userPhrase == ""
    }

    constructor ()
      ensures Valid()
      ensures code == "" && keyError == NoKeyError && files == [] && !keepLonger
      ensures downloadCode == "" && pendingFiles == None && userPhrase == ""
    {
      code, keyError, files, keepLonger := "", NoKeyError, [], false;
      downloadCode, pendingFiles, userPhrase := "", None, "";
    }

    /** `handleInputChange`: gate the code, and look it up only when it matches the pattern. */
    method HandleInputChange(newCode: string, store: DropStore) returns (outcome: InputOutcome)
      requires store.Valid()
      modifies this`keyError, store
      ensures store.Valid()
      ensures outcome == InputOutcomeFor(newCode, old(store.folders))
      ensures keyError == KeyErrorOf(outcome)
      ensures store.folders == old(store.folders) && store.meta == old(store.meta)
      ensures store.lookups == old(store.lookups) + if IsCode(newCode) then [newCode] else []
      ensures !IsCode(newCode) ==> store.rootExists == old(store.rootExists)
      ensures IsCode(newCode) ==> store.rootExists
    {
      keyError := NoKeyError;
      outcome := Skipped;
      if |newCode| == CodeLength {
        var isValid := IsCode(newCode);
        if isValid {
          var archive := store.GetFiles(newCode);
          if archive.None? {
            keyError := NoFilesFoundMessage;
            outcome := NoFilesFound;
          } else {
            outcome := Downloaded(archive.value);
          }
        } else {
          keyError := InvalidKeyMessage;
          outcome := InvalidKey;
        }
      }
    }

    /** Typing, pasting or opening `?code=`: the text is upper-cased, shown, then handled. */
    method EnterCode(raw: string, store: DropStore) returns (outcome: InputOutcome)
      requires store.Valid()
      modifies this`code, this`keyError, store
      ensures store.Valid()
      ensures code == Upper(raw)
      ensures outcome == InputOutcomeFor(Upper(raw), old(store.folders))
      ensures keyError == KeyErrorOf(outcome)
      ensures store.folders == old(store.folders) && store.meta == old(store.meta)
      ensures store.lookups == old(store.lookups) + if IsCode(Upper(raw)) then [Upper(raw)] else []
      ensures !IsCode(Upper(raw)) ==> store.rootExists == old(store.rootExists)
      ensures IsCode(Upper(raw)) ==> store.rootExists
    {
      code := Upper(raw);
      outcome := HandleInputChange(code, store);
    }

    /** Enter in the code field handles the code already shown. */
    method PressEnter(store: DropStore) returns (outcome: InputOutcome)
      requires store.Valid()
      modifies this`keyError, store
      ensures store.Valid()
      ensures outcome == InputOutcomeFor(code, old(store.folders))
      ensures keyError == KeyErrorOf(outcome)
      ensures store.folders == old(store.folders) && store.meta == old(store.meta)
      ensures store.lookups == old(store.lookups) + if IsCode(code) then [code] else []
      ensures !IsCode(code) ==> store.rootExists == old(store.rootExists)
      ensures IsCode(code) ==> store.rootExists
    {
      outcome := HandleInputChange(code, store);
    }

    /**
     `handleUpload`: park an oversized batch (unless the check is skipped),
     otherwise save it with the chosen retention, show its code and clear the
     list. When `saveFiles` throws, `failure` is its error and the page keeps
     its code and list; `saved` is the code the drop was stored under.
     */
    method HandleUpload(batch: seq<File>, skipSizeCheck: bool, store: DropStore, now: int, draws: seq<Draw>)
      returns (failure: Option<WriteError>, ghost saved: string)
      requires Valid() && store.Valid()
      requires !ParksUpload(batch, skipSizeCheck) ==> store.YieldsFreshCode(draws)
      modifies this`pendingFiles, this`userPhrase, this`downloadCode, this`files, store
      ensures Valid() && store.Valid()
      ensures store.lookups == old(store.lookups)
      ensures ParksUpload(batch, skipSizeCheck) ==>
        && failure.None? && pendingFiles == Some(batch) && userPhrase == ""
        && files == old(files) && downloadCode == old(downloadCode)
        && store.folders == old(store.folders) && store.meta == old(store.meta)
        && store.rootExists == old(store.rootExists)
      ensures !ParksUpload(batch, skipSizeCheck) ==>
        && IsCode(saved) && saved !in old(store.folders)
        && store.folders == old(store.folders)[saved := SavedFolder(batch)]
        && store.meta == old(store.meta)[saved := At(now + TtlHours(keepLonger) * MsPerHour)]
        && pendingFiles == old(pendingFiles) && userPhrase == old(userPhrase)
        && (failure.None? <==> WrittenCount(batch) == |batch|)
      ensures !ParksUpload(batch, skipSizeCheck) && failure.None? ==>
        downloadCode == saved && files == []
      ensures failure.Some? ==>
        && failure.value == IsADirectory(batch[WrittenCount(batch)].name)
        && downloadCode == old(downloadCode) && files == old(files)
    {
      saved := "";
      if ParksUpload(batch, skipSizeCheck) {
        pendingFiles := Some(batch);
        userPhrase := "";
        failure := None;
        return;
      }
      var code;
      code, failure := store.SaveFiles(batch, now, draws, TtlHours(keepLonger));
      saved := code;
      if failure.Some? {
        return;
      }
      downloadCode := code;
      files := [];
    }

    /** The upload button, disabled while the list is empty, sends the listed files through the size gate. */
    method Upload(store: DropStore, now: int, draws: seq<Draw>) returns (failure: Option<WriteError>, ghost saved: string)
      requires Valid() && store.Valid()
      requires files != [] && !ParksUpload(files, false) ==> store.YieldsFreshCode(draws)
      modifies this`pendingFiles, this`userPhrase, this`downloadCode, this`files, store
      ensures Valid() && store.Valid()
      ensures store.lookups == old(store.lookups)
      ensures old(files) == [] || ParksUpload(old(files), false) ==>
        && failure.None? && files == old(files) && downloadCode == old(downloadCode)
        && store.folders == old(store.folders) && store.meta == old(store.meta)
        && store.rootExists == old(store.rootExists)
      ensures old(files) == [] ==> pendingFiles == old(pendingFiles) && userPhrase == old(userPhrase)
      ensures old(files) != [] && ParksUpload(old(files), false) ==> pendingFiles == Some(old(files)) && userPhrase == ""
      ensures old(files) != [] && !ParksUpload(old(files), false) ==>
        && IsCode(saved) && saved !in old(store.folders)
        && store.folders == old(store.folders)[saved := SavedFolder(old(files))]
        && store.meta == old(store.meta)[saved := At(now + TtlHours(keepLonger) * MsPerHour)]
        && pendingFiles == old(pendingFiles) && userPhrase == old(userPhrase)
        && (failure.None? <==> WrittenCount(old(files)) == |old(files)|)
        && (failure.None? ==> downloadCode == saved && files == [])
        && (failure.Some? ==> downloadCode == old(downloadCode) && files == old(files))
    {
      saved := "";
      if files == [] {
        failure := None;
        return;
      }
      failure, saved := HandleUpload(files, false, store, now, draws);
    }

    /**
     The document `keydown` handler: while a batch is parked, append the
     lower-cased key to the phrase; once the phrase contains "confirm", upload
     the parked batch past the size check and clear both. When that upload
     throws, the handler stops before clearing them.
     */
    method HandleKeydown(key: string, store: DropStore, now: int, draws: seq<Draw>)
      returns (failure: Option<WriteError>, ghost saved: string)
      requires Valid() && store.Valid()
      requires pendingFiles.Some? ==> store.YieldsFreshCode(draws)
      modifies this`pendingFiles, this`userPhrase, this`downloadCode, this`files, store
      ensures Valid() && store.Valid()
      ensures store.lookups == old(store.lookups)
      ensures !(old(pendingFiles).Some? && Contains(old(userPhrase) + Lower(key), SecretPhrase)) ==>
        && failure.None? && pendingFiles == old(pendingFiles) && files == old(files)
        && downloadCode == old(downloadCode) && store.rootExists == old(store.rootExists)
        && store.folders == old(store.folders) && store.meta == old(store.meta)
      ensures old(pendingFiles).None? ==> userPhrase == old(userPhrase)
      ensures old(pendingFiles).Some? && !Contains(old(userPhrase) + Lower(key), SecretPhrase) ==>
        userPhrase == old(userPhrase) + Lower(key)
      ensures old(pendingFiles).Some? && Contains(old(userPhrase) + Lower(key), SecretPhrase) ==>
        var batch := old(pendingFiles).value;
        && IsCode(saved) && saved !in old(store.folders)
        && store.folders == old(store.folders)[saved := SavedFolder(batch)]
        && store.meta == old(store.meta)[saved := At(now + TtlHours(keepLonger) * MsPerHour)]
        && (failure.None? <==> WrittenCount(batch) == |batch|)
        && (failure.None? ==> pendingFiles == None && userPhrase == "" && files == [] && downloadCode == saved)
        && (failure.Some? ==>
              && pendingFiles == old(pendingFiles) && userPhrase == old(userPhrase) + Lower(key)
              && files == old(files) && downloadCode == old(downloadCode))
    {
      failure, saved := None, "";
      if pendingFiles.Some? {
        var newPhrase := userPhrase + Lower(key);
        userPhrase := newPhrase;
        if Contains(newPhrase, SecretPhrase) {
          failure, saved := HandleUpload(pendingFiles.value, true, store, now, draws);
          if failure.Some? {
            return;
          }
          pendingFiles := None;
          userPhrase := "";
        }
      }
    }

    /** `onDrop`: rename each dropped file against the current list, then append the batch in order. */
    method OnDrop(dropped: seq<File>)
      requires Valid()
      modifies this`files
      ensures Valid()
      ensures |files| == |old(files)| + |dropped|
      ensures files[..|old(files)|] == old(files)
      ensures forall i :: 0 <= i < |dropped| ==>
        var f := files[|old(files)| + i];
        f == dropped[i].(name := f.name) && IsRenaming(Names(old(files)), dropped[i].name, f.name)
    {
      var names := Names(files);
      var newFiles: seq<File> := [];
      for i := 0 to |dropped|
        invariant files == old(files)
        invariant |newFiles| == i
        invariant forall j :: 0 <= j < i ==>
          newFiles[j] == dropped[j].(name := newFiles[j].name) && IsRenaming(names, dropped[j].name, newFiles[j].name)
      {
        var fileName := RenameOnDrop(names, dropped[i].name);
        newFiles := newFiles + [dropped[i].(name := fileName)];
      }
      files := files + newFiles;
    }

    /** The remove icon of row `index`. */
    method RemoveAt(index: nat)
      requires Valid()
      modifies this`files
      ensures Valid()
      ensures files == Without(old(files), index)
    {
      files := Without(files, index);
    }

    method SetKeepLonger(checked: bool)
      requires Valid()
      modifies this`keepLonger
      ensures Valid()
      ensures keepLonger == checked
    {
      keepLonger := checked;
    }
  }

  /**
   Two files of one batch that share a name get the same new name: the rename
   loop only looks at the list as it was before the drop.
   */
  lemma SameBatchNamesCollide(files: seq<File>, dropped: seq<File>, after: seq<File>, i: nat, j: nat)
    requires i < j < |dropped| && dropped[i].name == dropped[j].name
    requires |after| == |files| + |dropped|
    requires forall k :: 0 <= k < |dropped| ==> IsRenaming(Names(files), dropped[k].name, after[|files| + k].name)
    ensures after[|files| + i].name == after[|files| + j].name
  {
    RenamingUnique(Names(files), dropped[i].name, after[|files| + i].name, after[|files| + j].name);
  }
}

=== FILE: report.dfy ===
/**
 The abuse-report form: three field validators, the form-wide validity that
 enables the submit button, the reason written into the mail, and the
 upper-casing of the code field. The page carries an identical copy of the
 validators; this module models both.
 */
module Report {
  import opened Text
  import opened Codes
  import opened Wrappers

  /** The translated error shown under a field. */
  datatype FieldError = InvalidCode | ReasonRequired | AdditionalRequired

  /** The form's values: the reported code, the selected reason label, and the free text. */
  datatype ReportValues = ReportValues(code: string, reason: string, additional: string)

  /** `validate.code`: the code must match `^[A-Z0-9]{6}$`. */
  function ValidateCode(value: string): (error: Option<FieldError>)
    ensures error.None? <==> IsCode(value)
    ensures error.Some? ==> error.value == InvalidCode
  {
    if IsCode(value) then None else Some(InvalidCode)
  }

  /** `validate.reason`: a reason must be selected (the empty string is falsy). */
  function ValidateReason(value: string): (error: Option<FieldError>)
    ensures error.None? <==> value != ""
    ensures error.Some? ==> error.value == ReasonRequired
  {
    if value != "" then None else Some(ReasonRequired)
  }

  /** `validate.aditional`: the free text is required when, and only when, the reason is the "other" label. */
  function ValidateAdditional(value: string, values: ReportValues, otherLabel: string): (error: Option<FieldError>)
    ensures error.Some? <==> values.reason == otherLabel && value == ""
    ensures values.reason != otherLabel ==> error.None?
    ensures error.Some? ==> error.value == AdditionalRequired
  {
    if values.reason == otherLabel && value == "" then Some(AdditionalRequired) else None
  }

  /** `reportForm.isValid()`: every field validator passes. */
  predicate FormValid(values: ReportValues, otherLabel: string)
  {
    && ValidateCode(values.code).None?
    && ValidateReason(values.reason).None?
    && ValidateAdditional(values.additional, values, otherLabel).None?
  }

  /** The submit button is enabled exactly for a pattern-matching code, a selected reason, and free text whenever the reason is "other". */
  lemma FormValidIff(values: ReportValues, otherLabel: string)
    ensures FormValid(values, otherLabel) <==>
      && IsCode(values.code) && values.reason != ""
      && (values.reason == otherLabel ==> values.additional != "")
  {
  }

  /** The reason written into the mail: the free text for "other", else the selected label. */
  function MailReason(values: ReportValues, otherLabel: string): (reason: string)
    ensures values.reason == otherLabel ==> reason == values.additional
    ensures values.reason != otherLabel ==> reason == values.reason
  {
    if values.reason == otherLabel then values.additional else values.reason
  }

  /** A form that passes validation mails a well-formed code and a non-empty reason. */
  lemma ValidFormMailsReason(values: ReportValues, otherLabel: string)
    requires FormValid(values, otherLabel)
    ensures IsCode(values.code)
    ensures MailReason(values, otherLabel) != ""
  {
  }

  /** The code field's `onChange`: the stored value is the upper-cased input. */
  function CodeFieldValue(input: string): (value: string)
    ensures |value| == |input|
    ensures forall i :: 0 <= i < |value| ==> value[i] == AsciiUpper(input[i])
  {
    Upper(input)
  }

  /** Storing what is already stored changes nothing. */
  lemma CodeFieldStable(input: string)
    ensures CodeFieldValue(CodeFieldValue(input)) == CodeFieldValue(input)
  {
    UpperIdempotent(input);
  }

  /** The stored code passes validation exactly when six ASCII letters or digits were typed, in any case. */
  lemma TypedCodeValidIff(input: string)
    ensures ValidateCode(CodeFieldValue(input)).None?
        <==> |input| == CodeLength && forall i :: 0 <= i < |input| ==> IsAsciiAlnum(input[i])
  {
    UpperIsCodeIff(input);
  }
}

=== FILE: request.dfy ===
/**
 Per-request locale selection: take the first member of the
 `Accept-Language` header and its primary subtag, load that locale's
 messages, and fall back to English only when no such messages exist.
 The dynamic import is a lookup in a catalog of locale files.
 */
module LocaleRequest {
  import opened Text
  import opened Wrappers

  type Messages = map<string, string>

  /** A locale file that exists: it loads, or its import fails for another reason. */
  datatype LocaleFile = Parsed(messages: Messages) | Broken(message: string)

  /** What an import throws: `MODULE_NOT_FOUND`, or anything else. */
  datatype LoadError = ModuleNotFound | OtherLoadError(message: string)

  datatype RequestConfig = RequestConfig(locale: string, messages: Messages)

  const DefaultLocale: string := "en"

  /** `headers().get('accept-language') || 'en'`: an absent or empty header reads as `en`. */
  function AcceptLanguage(header: Option<string>): (value: string)
    ensures value != ""
    ensures header.None? ==> value == DefaultLocale
    ensures header.Some? ==> value == (if header.value == "" then DefaultLocale else header.value)
  {
    if header.None? || header.value == "" then DefaultLocale else header.value
  }

  /**
   `acceptLanguage.split(',')[0].split('-')[0]`: the longest prefix of the
   header text without `,` or `-`, which stops at the end or at the first of them.
   */
  function PreferredLocale(header: Option<string>): (locale: string)
    ensures ',' !in locale && '-' !in locale
    ensures var value := AcceptLanguage(header); |locale| <= |value| && locale == value[..|locale|]
    ensures var value := AcceptLanguage(header); |locale| < |value| ==> value[|locale|] == ',' || value[|locale|] == '-'
    ensures header.None? ==> locale == DefaultLocale
  {
    var value := AcceptLanguage(header);
    var first := Before(value, ',');
    var locale := Before(first, '-');
    assert first == value[..|first|];
    assert |locale| < |first| ==> value[|locale|] == first[|locale|];
    locale
  }

  /** `import(`@/locales/${locale}.json`)`. */
  function Import(catalog: map<string, LocaleFile>, locale: string): (r: Result<Messages, LoadError>)
    ensures r == Err(ModuleNotFound) <==> locale !in catalog
    ensures r.Ok? ==> locale in catalog && catalog[locale] == Parsed(r.value)
    ensures locale in catalog && catalog[locale].Parsed? ==> r == Ok(catalog[locale].messages)
  {
    if locale !in catalog then Err(ModuleNotFound)
    else match catalog[locale]
      case Parsed(m) => Ok(m)
      case Broken(e) => Err(OtherLoadError(e))
  }

  /** The `getRequestConfig` callback: the preferred locale, else English when that file is missing. */
  function ResolveConfig(header: Option<string>, catalog: map<string, LocaleFile>): (r: Result<RequestConfig, LoadError>)
    ensures r.Ok? ==> r.value.locale in catalog && catalog[r.value.locale] == Parsed(r.value.messages)
    ensures r.Ok? ==> r.value.locale == PreferredLocale(header) || r.value.locale == DefaultLocale
    ensures var locale := PreferredLocale(header);
      locale in catalog && catalog[locale].Parsed? ==> r == Ok(RequestConfig(locale, catalog[locale].messages))
    ensures var locale := PreferredLocale(header);
      locale in catalog && catalog[locale].Broken? ==> r == Err(OtherLoadError(catalog[locale].message))
    ensures PreferredLocale(header) !in catalog ==>
      r == match Import(catalog, DefaultLocale)
           case Ok(m) => Ok(RequestConfig(DefaultLocale, m))
           case Err(e) => Err(e)
  {
    var locale := PreferredLocale(header);
    match Import(catalog, locale)
    case Ok(messages) => Ok(RequestConfig(locale, messages))
    case Err(error) =>
      if error == ModuleNotFound then
        match Import(catalog, DefaultLocale)
        case Ok(messages) => Ok(RequestConfig(DefaultLocale, messages))
        case Err(e) => Err(e)
      else Err(error)
  }

  /** A request whose preferred locale has no file and whose English file loads is served in English. */
  lemma FallsBackToEnglish(header: Option<string>, catalog: map<string, LocaleFile>)
    requires PreferredLocale(header) !in catalog
    requires DefaultLocale in catalog && catalog[DefaultLocale].Parsed?
    ensures ResolveConfig(header, catalog) == Ok(RequestConfig(DefaultLocale, catalog[DefaultLocale].messages))
  {
  }

  /** The header `de;q=0.9` has neither `,` nor `-`, so it is taken whole as the locale. */
  lemma QualityValueLocale()
    ensures PreferredLocale(Some("de;q=0.9")) == "de;q=0.9"
  {
    var header := "de;q=0.9";
    assert ',' !in header && '-' !in header;
    BeforeAbsent(header, ',');
    BeforeAbsent(header, '-');
  }

  /**
   Quality values are not stripped: a header that is only `de;q=0.9` asks for
   the locale `de;q=0.9`, which has no file, so the request is served in
   English even when German messages exist.
   */
  lemma QualityValueDefeatsMatch(de: Messages, en: Messages)
    ensures var catalog := map["de" := Parsed(de), "en" := Parsed(en)];
      ResolveConfig(Some("de;q=0.9"), catalog) == Ok(RequestConfig("en", en))
  {
    QualityValueLocale();
    var catalog := map["de" := Parsed(de), "en" := Parsed(en)];
    assert |"de;q=0.9"| == 8;
    assert "de;q=0.9" !in catalog;
    FallsBackToEnglish(Some("de;q=0.9"), catalog);
  }

  /** The header `de-AT,de;q=0.9` yields the primary subtag `de` of its first member. */
  lemma RegionalTagLocale()
    ensures PreferredLocale(Some("de-AT,de;q=0.9")) == "de"
  {
    var header := "de-AT,de;q=0.9";
    BeforeAt(header, ',', 5);
    assert header[..5] == "de-AT";
    BeforeAt("de-AT", '-', 2);
    assert "de-AT"[..2] == "de";
  }

  /** A regional tag resolves to its language: `de-AT,de;q=0.9` is served from the `de` file. */
  lemma RegionalTagUsesLanguage(de: Messages, en: Messages)
    ensures var catalog := map["de" := Parsed(de), "en" := Parsed(en)];
      ResolveConfig(Some("de-AT,de;q=0.9"), catalog) == Ok(RequestConfig("de", de))
  {
    RegionalTagLocale();
    var catalog := map["de" := Parsed(de), "en" := Parsed(en)];
    assert "de" in catalog && catalog["de"] == Parsed(de);
  }
}

=== FILE: text.dfy ===
/**
 String helpers shared by the client and the server: the ASCII part of
 JavaScript's `toUpperCase`/`toLowerCase`, `split(sep)[0]`, `includes`, and
 the decimal rendering of a counter inside a template string.
 */
module Text {

  function AsciiUpper(c: char): (r: char)
    ensures 'a' <= c <= 'z' ==> 'A' <= r <= 'Z' && r as int == c as int - 32
    ensures !('a' <= c <= 'z') ==> r == c
  {
    if 'a' <= c <= 'z' then (c as int - 32) as char else c
  }

  function AsciiLower(c: char): (r: char)
    ensures 'A' <= c <= 'Z' ==> 'a' <= r <= 'z' && r as int == c as int + 32
    ensures !('A' <= c <= 'Z') ==> r == c
  {
    if 'A' <= c <= 'Z' then (c as int + 32) as char else c
  }

  /** `s.toUpperCase()`, restricted to ASCII letters. */
  function Upper(s: string): (r: string)
    ensures |r| == |s|
    ensures forall i :: 0 <= i < |s| ==> r[i] == AsciiUpper(s[i])
    ensures forall i :: 0 <= i < |r| ==> !('a' <= r[i] <= 'z')
  {
    if s == [] then [] else [AsciiUpper(s[0])] + Upper(s[1..])
  }

  /** `s.toLowerCase()`, restricted to ASCII letters. */
  function Lower(s: string): (r: string)
    ensures |r| == |s|
    ensures forall i :: 0 <= i < |s| ==> r[i] == AsciiLower(s[i])
    ensures forall i :: 0 <= i < |r| ==> !('A' <= r[i] <= 'Z')
  {
    if s == [] then [] else [AsciiLower(s[0])] + Lower(s[1..])
  }

  /** Upper-casing twice is upper-casing once. */
  lemma {:induction false} UpperIdempotent(s: string)
    ensures Upper(Upper(s)) == Upper(s)
  {
    if s != [] {
      UpperIdempotent(s[1..]);
      assert Upper(s)[1..] == Upper(s[1..]);
    }
  }

  /** `sub` occurs in `s` starting at position `i`. */
  predicate OccursAt(s: string, sub: string, i: nat)
  {
    i + |sub| <= |s| && s[i..i + |sub|] == sub
  }

  /** `s.includes(sub)`. */
  predicate Contains(s: string, sub: string)
  {
    exists i: nat | i <= |s| :: OccursAt(s, sub, i)
  }

  /** `s.split(sep)[0]`: the text before the first `sep`, or all of `s` when there is none. */
  function Before(s: string, sep: char): (r: string)
    ensures |r| <= |s| && r == s[..|r|]
    ensures sep !in r
    ensures |r| < |s| ==> s[|r|] == sep
  {
    if s == [] || s[0] == sep then [] else [s[0]] + Before(s[1..], sep)
  }

  /** The text before the first `sep` is everything up to its position. */
  lemma {:induction false} BeforeAt(s: string, sep: char, k: nat)
    requires k < |s| && s[k] == sep && sep !in s[..k]
    ensures Before(s, sep) == s[..k]
  {
    if k > 0 {
      assert s[1..][..k - 1] == s[1..k];
      BeforeAt(s[1..], sep, k - 1);
    }
  }

  /** Without a `sep`, `split(sep)[0]` is the whole string. */
  lemma {:induction false} BeforeAbsent(s: string, sep: char)
    requires sep !in s
    ensures Before(s, sep) == s
  {
    if s != [] {
      BeforeAbsent(s[1..], sep);
    }
  }

  function DigitChar(d: nat): (c: char)
    requires d < 10
    ensures '0' <= c <= '9' && c as int - '0' as int == d
  {
    ('0' as int + d) as char
  }

  /** The decimal text of `n`, as a template literal prints a counter. */
  function Decimal(n: nat): (r: string)
    ensures |r| >= 1
    ensures forall i :: 0 <= i < |r| ==> '0' <= r[i] <= '9'
    ensures n >= 10 <==> |r| >= 2
  {
    if n < 10 then [DigitChar(n)] else Decimal(n / 10) + [DigitChar(n % 10)]
  }

  /** Different numbers print differently. */
  lemma {:induction false} DecimalInjective(m: nat, n: nat)
    requires Decimal(m) == Decimal(n)
    ensures m == n
  {
    var dm, dn := Decimal(m), Decimal(n);
    if m >= 10 {
      assert n >= 10;
      assert dm[|dm| - 1] == DigitChar(m % 10) && dn[|dn| - 1] == DigitChar(n % 10);
      assert dm[..|dm| - 1] == Decimal(m / 10);
      assert dn[..|dn| - 1] == Decimal(n / 10);
      DecimalInjective(m / 10, n / 10);
    } else {
      assert n < 10;
      assert dm[0] == DigitChar(m) && dn[0] == DigitChar(n);
    }
  }
}

=== FILE: wrappers.dfy ===
/** Option and Result values for the JavaScript `null` returns and thrown errors of the model. */
module Wrappers {

  datatype Option<+T> = None | Some(value: T)

  datatype Result<+T, +E> = Ok(value: T) | Err(error: E)
}
